=== FILE: README.md ===
# Guest-file combiner and ban-status checks, modelled in Dafny

This project models the three pieces of decision logic inside a small React /
Next.js tool set:

- the **guest-file combiner** (`GuestCombiner.tsx`): every selected `.dat`
  file is read as text and parsed as JSON, the guest uid and password are
  taken from its `guest_account_info` object, and the records of all files
  that yielded one are downloaded, in selection order, as a single
  `combined_guest.json`;
- the **ban-check API route** (`app/api/check/route.ts`): validates the
  `id` and `check` query parameters, asks the upstream ban service and maps
  its reply to a `{player_id, is_banned, status}` report or an error status;
- the **client ban checker** (`BanChecker.tsx`): refuses a blank UID, and
  otherwise turns the reply of a proxied ban API into a BANNED, NOT BANNED or
  ERROR banner.

Files and modules:

| file | module | contents |
|---|---|---|
| `wrappers.dfy` | `Wrappers` | `Option` (a value or `null`) and `Result` (a value or a thrown exception) |
| `js_value.dfy` | `JsValue` | JavaScript values with a distinct `undefined`; truthiness; property access that throws on `null`/`undefined`; `?.`, `??`; what `JSON.parse(JSON.stringify(v))` returns |
| `js_string.dfy` | `JsString` | `String.prototype.trim` and when it yields the empty string |
| `guest_combiner.dfy` | `GuestCombiner` | `readFile`, `Promise.all`, the null filter, the downloaded document, `processFiles`, `handleFileChange`, `resetForm` |
| `ban_route.dfy` | `BanRoute` | `URLSearchParams.get`, the ban-flag derivation, `GET`, `POST` |
| `ban_checker.dfy` | `BanChecker` | the message format, reply classification, `checkBan` |

Everything the code leaves to the platform is a parameter: `JSON.parse` is a
function `string -> Option<Json>` (`None` for a syntax error), each file is
the FileReader's outcome (`ReadFailed` or `Text(s)`), `fetch` followed by
`.json()` is a function from URL to `Option<Json>` (`None` for a thrown
error, a non-ok response or a non-JSON body), and `encodeURIComponent` is a
function parameter. With those as inputs every operation is a total, pure
function, and the asynchronous fan-out of the combiner is a `map` over the
file sequence followed by an order-preserving filter.

Each operation is written the way the code evaluates it (property reads
that throw, `?.`, `??`, `typeof … === 'boolean'`) and its contract states the
result in independent terms: `Lookup`, a total property read, and
`Truthy`. Lemmas connect the pieces: the filter is characterised in both
directions as the unique order-preserving selection of the non-null
results; `Promise.all`'s reassembly by index is proved independent of the
completion order; a failing file is proved not to affect the rest of the
batch; and the downloaded document is proved to read back as the combined
records.

One might expect a file whose `guest_account_info` lacks the uid or password
key, or holds non-strings there, to be skipped. The code checks nothing, and
the model follows the code. Any `guest_account_info` that is neither `null`
nor `undefined` yields a record, possibly with `undefined` fields, which
`JSON.stringify` then omits from that record's object in the download.
`GuestCombiner.MissingPasswordStillYieldsRecord` exhibits such a file.
Likewise no count of skipped files is reported anywhere: failures only reach
the console.

## Model

| member | source | states |
|---|---|---|
| `JsValue.Get` | src/components/GuestCombiner.tsx:31-34 | a property read throws exactly on `null` and `undefined`; otherwise it gives the object's member, or `undefined` when the key is absent or the receiver is not an object |
| `JsValue.ReparseIdentity` | src/components/GuestCombiner.tsx:68 | serializing a JSON value with `JSON.stringify` and parsing it back gives the same value, at every depth |
| `JsString.TrimEmptyIff` | src/components/BanChecker.tsx:10 | `uid.trim()` is empty exactly when every character is whitespace or a line terminator |
| `GuestCombiner.ReadFile` | src/components/GuestCombiner.tsx:25-47 | a file yields `null` exactly when it cannot be read, does not parse, or its `guest_account_info` is `null`/`undefined`; otherwise the record holds exactly the two dotted-key members of that object, unchecked |
| `GuestCombiner.AwaitAll` | src/components/GuestCombiner.tsx:57-60 | whatever order the per-file reads settle in, the collected results are the per-file results in selection order |
| `GuestCombiner.KeepNonNull` | src/components/GuestCombiner.tsx:61 | the filtered list is no longer than the results and is empty exactly when every result is `null` |
| `GuestCombiner.KeepNonNullSelects` | src/components/GuestCombiner.tsx:61 | the filtered list is an order-preserving subsequence of the results that keeps every non-null one |
| `GuestCombiner.SelectionIsKeepNonNull` | src/components/GuestCombiner.tsx:57-61 | any order-preserving selection of exactly the non-null results equals the filtered list, so the batch is determined by the per-file results alone |
| `GuestCombiner.Combine` | src/components/GuestCombiner.tsx:57-61 | the valid records number at most the files and are empty exactly when every file yields `null` |
| `GuestCombiner.CombineAppend` | src/components/GuestCombiner.tsx:57-61 | the batch of two concatenated file lists is the concatenation of their batches |
| `GuestCombiner.FailedFileIsolated` | src/components/GuestCombiner.tsx:36-61 | a file that yields `null` contributes nothing and the batch equals the batch of the remaining files |
| `GuestCombiner.Document` | src/components/GuestCombiner.tsx:68 | the downloaded document is an array with one element per record and contains no `undefined` |
| `GuestCombiner.DocumentRoundTrip` | src/components/GuestCombiner.tsx:68 | reading `uid` and `password` back from each element of the document gives the records, in order |
| `GuestCombiner.CombinedFieldsDenotable` | src/components/GuestCombiner.tsx:30-35 | every field of a combined record is `undefined` or a JSON value |
| `GuestCombiner.HandleFileChange` | src/components/GuestCombiner.tsx:10-16 | the selected count becomes the new list's length, or 0 without a list, and nothing else changes |
| `GuestCombiner.ResetForm` | src/components/GuestCombiner.tsx:18-23 | the input's file list is emptied when there is an input, and the selected count becomes 0 |
| `GuestCombiner.ProcessFiles` | src/components/GuestCombiner.tsx:49-85 | no files: the select-files alert and no state change; otherwise the no-data alert exactly when every file yields `null`, and one `combined_guest.json` download exactly when some file yields a record, of type `application/json` holding the batch and a reset form; processing is false after every path that set it |
| `GuestCombiner.ResetFormMatches` | src/components/GuestCombiner.tsx:18-23 | after a reset the counter agrees with the input's (emptied) file list |
| `GuestCombiner.HandleFileChangeMatches` | src/components/GuestCombiner.tsx:10-16 | after a change event the counter equals the length of the list the input holds, or 0 |
| `GuestCombiner.ProcessFilesKeepsCounter` | src/components/GuestCombiner.tsx:49-85 | processing keeps the counter in agreement with the file list on every path |
| `GuestCombiner.EnabledButtonPassesGuard` | src/components/GuestCombiner.tsx:51-54 | with the counter in agreement, a non-zero counter (the enabled button) never leads to the select-files alert |
| `GuestCombiner.DownloadRoundTrip` | src/components/GuestCombiner.tsx:57-78 | the downloaded document is non-empty and reads back as the records of the readable files in selection order |
| `GuestCombiner.MixedBatch` | src/components/GuestCombiner.tsx:57-61 | two good files around an unparsable one give the two records in their original order |
| `GuestCombiner.MissingPasswordStillYieldsRecord` | src/components/GuestCombiner.tsx:31-35 | a file without the password key yields a record with an `undefined` password, downloaded as an object with `uid` only |
| `BanRoute.SearchParam` | Banchecker-Updated/app/api/check/route.ts:4-6 | a parameter is absent exactly when no pair has its name; otherwise its value is that of the first pair with the name |
| `BanRoute.BanFlag` | Banchecker-Updated/app/api/check/route.ts:41-42 | reading the flag throws exactly on a `null` reply; otherwise the flag is never nullish and is truthy exactly when `data.is_banned` is |
| `BanRoute.Get` | Banchecker-Updated/app/api/check/route.ts:3-55 | 400 "Player ID is required" exactly for a missing or empty `id`, checked first; 400 "Invalid action" exactly for a valid `id` with another `check`; 500 "Failed to fetch data from server" exactly when the call to `UpstreamUrl` (the fixed endpoint followed by the raw `id`) fails or replies `null`; a report whenever the upstream reply is a non-null value, echoing the `id`, with `is_banned` the truthiness of `data.is_banned` and `status` BANNED exactly when `is_banned` |
| `BanRoute.Post` | Banchecker-Updated/app/api/check/route.ts:57-59 | `POST` answers as `GET` does for the same request |
| `BanRoute.ValidationPrecedesUpstream` | Banchecker-Updated/app/api/check/route.ts:8-54 | a 400 reply is the same whatever the upstream service would answer |
| `BanChecker.StatusMessageEmbeds` | src/components/BanChecker.tsx:31 | the message built by `StatusMessage` carries the UID and the status text at fixed positions, so both can be read back |
| `BanChecker.Classify` | src/components/BanChecker.tsx:21-41 | an `error` banner exactly for `is_banned === true`, `success` exactly for `false`, `warn` with the ERROR message otherwise (failed request, `null` body, missing or non-boolean flag), each with its message |
| `BanChecker.CheckBan` | src/components/BanChecker.tsx:9-45 | a blank UID is refused with the "Please enter a UID." warning and no request; otherwise the banner is cleared and loading set while the proxied request to `RequestUrl` (proxy prefix plus the encoded API URL ending in the raw UID) is in flight, and afterwards loading is off and the banner is the classification of the reply |
| `BanChecker.RefusalIgnoresFetch` | src/components/BanChecker.tsx:10-13 | a refused press is the same whatever the network would return |
| `BanChecker.EchoesUntrimmedUid` | src/components/BanChecker.tsx:31-39 | for a non-blank UID the banner message carries the UID exactly as typed, surrounding blanks included |

## Left out

- File reading, `Promise`, `fetch`, `NextResponse`, `Blob`, object URLs, the
  download anchor, `alert` and the console: I/O and scheduling, modelled by
  their outcomes (the FileReader outcome, the parsed reply, the `Effect`
  value) or dropped.
- `JSON.parse` and `encodeURIComponent`: library calls, passed in as
  function parameters.
- `JSON.stringify`'s text and indentation: only what parsing the text back
  yields is modelled (`JsValue.Reparse`); objects are maps, so key order in
  the output is not modelled.
- `GuestCombiner.ProcessFiles`: the `catch` branch with "An error occurred
  while processing the files." is not modelled, because `readFile` never
  rejects, stringifying the records is taken not to throw (the engine's
  stack depth and maximum string length, beyond which it throws a
  RangeError, are not modelled), and the DOM download is taken to succeed; the transient `isProcessing = true` state during the
  batch is not exposed.
- `JsValue.Lookup`: properties that exist on non-object values (`length`,
  array indices, prototype methods) are not modelled; none of the keys the
  code reads are such properties.
- GuestCombiner.DownloadRoundTrip: numbers are finite reals, so a numeric
  field that `JSON.parse` turns into `Infinity` (a literal beyond the double
  range, such as `1e400`) is not modelled; `JSON.stringify` writes it as
  `null`, so such a field would not read back unchanged.
- BanChecker.CheckBan: does not model the URIError `encodeURIComponent`
  throws for a UID holding a lone surrogate. That call runs before the
  `try`, so `checkBan` then rejects with loading left on and no banner. The
  model's strings hold Unicode scalar values only and `encodeURIComponent`
  is a total parameter, so every request it models ends with loading off.
- The upstream request headers and cookies, and the third-party services'
  own behaviour.
- The drag-and-drop handlers, the rendering, the Next.js page with its own
  client fetch, the animated background, routing, theming and layout:
  presentation only.

=== FILE: ban_checker.dfy ===
/** The client-side ban checker: a blank UID is refused on the spot;
    otherwise the UID is sent through a CORS proxy to a third-party ban API
    and the reply is shown as one of three coloured banners. */
module BanChecker {
  import Wrappers
  import opened JsValue
  import opened JsString

  const EmptyUidMessage := "Please enter a UID."
  const ApiPrefix := "https://teamxcutehack.serv00.net/ban_chk/api.php?check=checkbanned&key=chx&id="
  const ProxyPrefix := "https://api.allorigins.win/raw?url="

  /** The banner colours: `success` green, `error` red, `warn` yellow. */
  datatype ResultType = Success | Error | Warn

  datatype Banner = Banner(message: string, kind: ResultType)

  /** The component state: the typed UID, the spinner flag and the banner. */
  datatype View = View(uid: string, isLoading: bool, result: Wrappers.Option<Banner>)

  /** `fetch(url)` then `res.json()`: the parsed body, or `None` when the
      fetch throws, the response is not ok or the body is not JSON. */
  type Fetch = string -> Wrappers.Option<Json>

  /** One press of the button: refused with no request, or a request to `url`
      with the view shown while it is in flight and the view afterwards. */
  datatype Run =
    | Refused(after: View)
    | Requested(url: string, during: View, after: View)

  function StatusMessage(uid: string, status: string): string {
    "UID = " + uid + "\nStatus = " + status
  }

  /** The two-line message shows the UID exactly as typed, and the status
      after it: both can be read back from the message. */
  lemma StatusMessageEmbeds(uid: string, status: string)
    ensures |StatusMessage(uid, status)| == 16 + |uid| + |status|
    ensures StatusMessage(uid, status)[6..6 + |uid|] == uid
    ensures StatusMessage(uid, status)[16 + |uid|..] == status
  {
  }

  /** The banner for a reply, as the `try`/`catch` computes it: only a boolean
      `is_banned` gives a verdict; a failed request, a `null` body (whose
      property read throws) or any other `is_banned` gives the ERROR banner. */
  function Classify(uid: string, reply: Wrappers.Option<Json>): (b: Banner)
    ensures b.kind == Error <==> reply.Some? && Lookup(reply.value, "is_banned") == Bool(true)
    ensures b.kind == Success <==> reply.Some? && Lookup(reply.value, "is_banned") == Bool(false)
    ensures b.kind == Error ==> b.message == StatusMessage(uid, "BANNED")
    ensures b.kind == Success ==> b.message == StatusMessage(uid, "NOT BANNED")
    ensures b.kind == Warn ==> b.message == StatusMessage(uid, "ERROR")
  {
    var failed := Banner(StatusMessage(uid, "ERROR"), Warn);
    match reply
    case None => failed
    case Some(data) =>
      match JsValue.Get(data, "is_banned")
      case Failure(_) => failed
      case Success(flag) =>
        if flag.Bool? then
          var statusText := if flag.b then "BANNED" else "NOT BANNED";
          var resultType := if flag.b then Error else Success;
          Banner(StatusMessage(uid, statusText), resultType)
        else
          failed
  }

  function RequestUrl(uid: string, encodeURIComponent: string -> string): string {
    ProxyPrefix + encodeURIComponent(ApiPrefix + uid)
  }

  /** `checkBan`. `encodeURIComponent` is a parameter: percent-encoding is
      not modelled. */
  function CheckBan(view: View, fetch: Fetch, encodeURIComponent: string -> string): (run: Run)
    ensures run.Refused? <==> AllTrimmable(view.uid)
    ensures run.Refused? ==>
      run.after == view.(result := Wrappers.Some(Banner(EmptyUidMessage, Warn)))
    ensures run.Requested? ==>
      && run.url == RequestUrl(view.uid, encodeURIComponent)
      && run.during == view.(isLoading := true, result := Wrappers.None)
      && run.after == view.(isLoading := false, result := Wrappers.Some(Classify(view.uid, fetch(run.url))))
  {
    TrimEmptyIff(view.uid);
    if Trim(view.uid) == "" then
      Refused(view.(result := Wrappers.Some(Banner(EmptyUidMessage, Warn))))
    else
      var during := view.(isLoading := true, result := Wrappers.None);
      var url := RequestUrl(view.uid, encodeURIComponent);
      var banner := Classify(view.uid, fetch(url));
      Requested(url, during, during.(isLoading := false, result := Wrappers.Some(banner)))
  }

  /** A refused press is decided without the network: it is the same
      whatever the fetch would return. */
  lemma RefusalIgnoresFetch(view: View, fetch1: Fetch, fetch2: Fetch, encode: string -> string)
    requires CheckBan(view, fetch1, encode).Refused?
    ensures CheckBan(view, fetch2, encode) == CheckBan(view, fetch1, encode)
  {
  }

  /** A UID with surrounding blanks is sent and echoed as typed: the banner
      message carries the untrimmed UID. */
  lemma EchoesUntrimmedUid(view: View, fetch: Fetch, encode: string -> string)
    requires !AllTrimmable(view.uid)
    ensures var run := CheckBan(view, fetch, encode);
      run.Requested? && run.after.result.Some?
      && run.after.result.value.message[6..6 + |view.uid|] == view.uid
  {
  }
}

=== FILE: ban_route.dfy ===
/** The `/api/check` route handler: validates the query, asks the upstream
    ban service about the player and maps its reply to a status report. */
module BanRoute {
  import opened Wrappers
  import opened JsValue

  const CheckAction := "checkbanned"
  const UpstreamPrefix := "https://ff.garena.com/api/antihack/check_banned?lang=en&uid="

  const MissingIdMessage := "Player ID is required"
  const InvalidActionMessage := "Invalid action"
  const UpstreamFailedMessage := "Failed to fetch data from server"

  const BannedText := "BANNED"
  const NotBannedText := "NOT BANNED"

  /** The request's query string as decoded name/value pairs, in order. */
  datatype Request = Request(query: seq<(string, string)>)

  /** `fetch(url)` followed by `response.json()`: the parsed body, or `None`
      when the fetch throws, the response is not ok, or the body is not
      JSON. Request headers are not modelled. */
  type Upstream = string -> Option<Json>

  /** The JSON reply: an `{error}` body with an HTTP error status, or the
      `{player_id, is_banned, status}` report sent with status 200. */
  datatype Response =
    | ErrorReply(code: nat, error: string)
    | StatusReply(playerId: string, isBanned: bool, status: string)

  function HttpStatus(r: Response): nat {
    if r.ErrorReply? then r.code else 200
  }

  /** `URLSearchParams.get(name)`: the value of the first pair with that name,
      `null` when there is none. */
  function SearchParam(query: seq<(string, string)>, name: string): (r: Option<string>)
    ensures r.None? <==> forall i :: 0 <= i < |query| ==> query[i].0 != name
    ensures r.Some? ==> exists i :: (0 <= i < |query| && query[i] == (name, r.value)
      && forall j :: 0 <= j < i ==> query[j].0 != name)
  {
    if query == [] then None
    else if query[0].0 == name then Some(query[0].1)
    else
      var r := SearchParam(query[1..], name);
      if r.Some? then
        ghost var i :| 0 <= i < |query[1..]| && query[1..][i] == (name, r.value)
          && forall j :: 0 <= j < i ==> query[1..][j].0 != name;
        assert query[i + 1] == (name, r.value);
        assert forall j :: 0 <= j < i + 1 ==> query[j].0 != name by {
          forall j | 0 <= j < i + 1
            ensures query[j].0 != name
          {
            if j > 0 {
              assert query[j] == query[1..][j - 1];
            }
          }
        }
        r
      else
        assert forall i :: 1 <= i < |query| ==> query[i] == query[1..][i - 1];
        r
  }

  function UpstreamUrl(playerId: string): string {
    UpstreamPrefix + playerId
  }

  /** The ban flag as the handler derives it from the upstream reply:
      `result.data?.is_banned ?? 0`. Reading `data` throws when the reply is
      `null`. */
  function BanFlag(result: Json): (r: Result<Json, TypeError>)
    ensures r.Failure? <==> IsNullish(result)
    ensures r.Success? ==> Truthy(r.value) == Truthy(Lookup(Lookup(result, "data"), "is_banned"))
    ensures r.Success? ==> !IsNullish(r.value)
  {
    var data :- JsValue.Get(result, "data");
    Success(Coalesce(OptionalGet(data, "is_banned"), Num(0.0)))
  }

  /** `GET`. The `catch` branch covers a failed fetch, a non-JSON body and a
      `null` body, whose `data` read throws. */
  function Get(request: Request, upstream: Upstream): (r: Response)
    ensures var id := SearchParam(request.query, "id");
      (id.None? || id.value == "") <==> r == ErrorReply(400, MissingIdMessage)
    ensures var id := SearchParam(request.query, "id");
      id.Some? && id.value != "" && SearchParam(request.query, "check") != Some(CheckAction)
      <==> r == ErrorReply(400, InvalidActionMessage)
    ensures r.ErrorReply? ==> r.code in {400, 500}
    ensures r.ErrorReply? && r.code == 500 <==>
      var id := SearchParam(request.query, "id");
      && id.Some? && id.value != ""
      && SearchParam(request.query, "check") == Some(CheckAction)
      && var reply := upstream(UpstreamUrl(id.value));
         reply.None? || IsNullish(reply.value)
    ensures r.ErrorReply? && r.code == 500 ==> r.error == UpstreamFailedMessage
    ensures r.StatusReply? ==>
      && SearchParam(request.query, "id") == Some(r.playerId)
      && var reply := upstream(UpstreamUrl(r.playerId));
         reply.Some? && r.isBanned == Truthy(Lookup(Lookup(reply.value, "data"), "is_banned"))
    ensures var id := SearchParam(request.query, "id");
      && id.Some? && id.value != ""
      && SearchParam(request.query, "check") == Some(CheckAction)
      && upstream(UpstreamUrl(id.value)).Some?
      && !IsNullish(upstream(UpstreamUrl(id.value)).value)
      ==> r.StatusReply?
    ensures r.StatusReply? ==> (r.status == BannedText <==> r.isBanned)
    ensures r.StatusReply? ==> r.status in {BannedText, NotBannedText}
  {
    var check := SearchParam(request.query, "check");
    var playerId := SearchParam(request.query, "id");
    if playerId.None? || playerId.value == "" then
      ErrorReply(400, MissingIdMessage)
    else if check == Some(CheckAction) then
      match upstream(UpstreamUrl(playerId.value))
      case None => ErrorReply(500, UpstreamFailedMessage)
      case Some(result) =>
        match BanFlag(result)
        case Failure(_) => ErrorReply(500, UpstreamFailedMessage)
        case Success(isBanned) =>
          StatusReply(playerId.value, Truthy(isBanned), if Truthy(isBanned) then BannedText else NotBannedText)
    else
      ErrorReply(400, InvalidActionMessage)
  }

  /** `POST` answers exactly as `GET` does for the same request. */
  function Post(request: Request, upstream: Upstream): (r: Response)
    ensures r == Get(request, upstream)
  {
    Get(request, upstream)
  }

  /** The 400 replies are decided from the query alone: whatever the upstream
      service would answer, the reply is the same, so no request to it can
      matter. */
  lemma ValidationPrecedesUpstream(request: Request, upstream1: Upstream, upstream2: Upstream)
    requires HttpStatus(Get(request, upstream1)) == 400
    ensures Get(request, upstream1) == Get(request, upstream2)
  {
  }
}

=== FILE: guest_combiner.dfy ===
/** The guest-file combiner: every selected file is read as text and parsed
    as JSON, the guest uid and password are taken out of its
    `guest_account_info` object, and the records of all files that yielded
    one are written, in selection order, to a single `combined_guest.json`
    download. */
module GuestCombiner {
  import opened Wrappers
  import opened JsValue

  const InfoKey := "guest_account_info"
  const UidKey := "com.garena.msdk.guest_uid"
  const PasswordKey := "com.garena.msdk.guest_password"

  const OutputName := "combined_guest.json"
  const OutputType := "application/json"

  const NoFilesMessage := "Please select at least one .dat file."
  const NoDataMessage := "No valid .dat file data found."

  /** What the FileReader delivers for one file: `onerror`, or `onload` with
      the file's text. The file name only reaches the console and is not
      modelled. */
  datatype File = ReadFailed | Text(content: string)

  /** `JSON.parse`, total: `None` where it throws a SyntaxError. */
  type Parser = string -> Option<Json>

  /** The `{uid, password}` object `readFile` resolves to. Its fields hold
      whatever the two keys held, `undefined` included: nothing checks them. */
  datatype GuestRecord = GuestRecord(uid: Json, password: Json)

  /** The body of the `try` block once the text has parsed: three property
      reads, each of which throws on a `null` or `undefined` receiver. */
  function ExtractRecord(parsed: Json): Result<GuestRecord, TypeError> {
    var info :- Get(parsed, InfoKey);
    var uid :- Get(info, UidKey);
    // `info` is not nullish here, so this read cannot throw; the failure arm
    // only forwards the error, where a third `:-` would hold a dead check
    match Get(info, PasswordKey)
    case Success(password) => Success(GuestRecord(uid, password))
    case Failure(e) => Failure(e)
  }

  /** `readFile`: a read error, a parse error and a thrown TypeError all
      resolve to `null`; otherwise the record holds the two looked-up members,
      whatever they are. */
  function ReadFile(file: File, parse: Parser): (r: Option<GuestRecord>)
    ensures r.None? <==>
      || file.ReadFailed?
      || parse(file.content).None?
      || IsNullish(Lookup(parse(file.content).value, InfoKey))
    ensures r.Some? ==>
      var info := Lookup(parse(file.content).value, InfoKey);
      r.value == GuestRecord(Lookup(info, UidKey), Lookup(info, PasswordKey))
  {
    match file
    case ReadFailed => None
    case Text(s) =>
      match parse(s)
      case None => None
      case Some(parsed) => ExtractRecord(parsed).ToOption()
  }

  /** The settled values of `Array.from(files).map(readFile)`, by index. */
  function ReadAll(files: seq<File>, parse: Parser): (results: seq<Option<GuestRecord>>)
    ensures |results| == |files|
    ensures forall i :: 0 <= i < |files| ==> results[i] == ReadFile(files[i], parse)
  {
    seq(|files|, i requires 0 <= i < |files| => ReadFile(files[i], parse))
  }

  /** `Promise.all(readPromises)`: the per-file reads settle in an arbitrary
      completion order (`completion` lists file indices as they settle, and
      every file settles), and each value is stored under its file's own
      index. Whatever the order, the result is the per-file values in
      selection order. */
  method AwaitAll(files: seq<File>, parse: Parser, completion: seq<nat>)
    returns (results: seq<Option<GuestRecord>>)
    requires forall k :: 0 <= k < |completion| ==> completion[k] < |files|
    requires forall i :: 0 <= i < |files| ==> i in completion
    ensures results == ReadAll(files, parse)
  {
    var slots: seq<Option<GuestRecord>> := seq(|files|, _ => None);
    var settled: seq<bool> := seq(|files|, _ => false);
    var k := 0;
    while k < |completion|
      invariant 0 <= k <= |completion|
      invariant |slots| == |files| && |settled| == |files|
      invariant forall i :: 0 <= i < |files| && settled[i] ==> slots[i] == ReadFile(files[i], parse)
      invariant forall j :: 0 <= j < k ==> settled[completion[j]]
    {
      var i := completion[k];
      slots := slots[i := ReadFile(files[i], parse)];
      settled := settled[i := true];
      k := k + 1;
    }
    forall i | 0 <= i < |files|
      ensures slots[i] == ReadFile(files[i], parse)
    {
      assert i in completion;
      var j :| 0 <= j < |completion| && completion[j] == i;
      assert settled[completion[j]];
    }
    results := slots;
  }

  /** `results.filter(data => data !== null)`. */
  function KeepNonNull<T>(results: seq<Option<T>>): (valid: seq<T>)
    ensures |valid| <= |results|
    ensures valid == [] <==> forall i :: 0 <= i < |results| ==> results[i].None?
  {
    if results == [] then []
    else
      var rest := KeepNonNull(results[1..]);
      match results[0]
      case Some(v) => [v] + rest
      case None => rest
  }

  /** `idx` picks out of `results`, in increasing order, exactly the positions
      that hold a value, and `valid` lists those values in that order. */
  ghost predicate IsSelection<T>(results: seq<Option<T>>, idx: seq<nat>, valid: seq<T>) {
    && |idx| == |valid|
    && (forall k :: 0 <= k < |idx| ==> idx[k] < |results| && results[idx[k]] == Some(valid[k]))
    && (forall k, l :: 0 <= k < l < |idx| ==> idx[k] < idx[l])
    && (forall i :: 0 <= i < |results| && results[i].Some? ==> i in idx)
  }

  function Shift(idx: seq<nat>): (r: seq<nat>)
    ensures |r| == |idx|
    ensures forall k :: 0 <= k < |idx| ==> r[k] == idx[k] + 1
  {
    seq(|idx|, k requires 0 <= k < |idx| => idx[k] + 1)
  }

  function Unshift(idx: seq<nat>): (r: seq<nat>)
    requires forall k :: 0 <= k < |idx| ==> idx[k] > 0
    ensures |r| == |idx|
    ensures forall k :: 0 <= k < |idx| ==> r[k] == idx[k] - 1
  {
    seq(|idx|, k requires 0 <= k < |idx| => idx[k] - 1)
  }

  /** Extending a selection of `results[1..]` by a leading `null`. */
  lemma SkipSelection<T>(results: seq<Option<T>>, tail: seq<nat>, valid: seq<T>)
    requires results != [] && results[0].None?
    requires IsSelection(results[1..], tail, valid)
    ensures IsSelection(results, Shift(tail), valid)
  {
  }

  /** Extending a selection of `results[1..]` by a leading value. */
  lemma PrependSelection<T>(results: seq<Option<T>>, tail: seq<nat>, valid: seq<T>)
    requires results != [] && results[0].Some?
    requires IsSelection(results[1..], tail, valid)
    ensures IsSelection(results, [0] + Shift(tail), [results[0].value] + valid)
  {
  }

  /** The filtered values form an order-preserving subsequence of the
      per-file results that keeps every non-null one. */
  lemma {:induction false} KeepNonNullSelects<T>(results: seq<Option<T>>) returns (idx: seq<nat>)
    ensures IsSelection(results, idx, KeepNonNull(results))
  {
    if results == [] {
      idx := [];
    } else {
      var rest := KeepNonNull(results[1..]);
      var tail := KeepNonNullSelects(results[1..]);
      if results[0].Some? {
        PrependSelection(results, tail, rest);
        assert KeepNonNull(results) == [results[0].value] + rest;
        idx := [0] + Shift(tail);
      } else {
        SkipSelection(results, tail, rest);
        assert KeepNonNull(results) == rest;
        idx := Shift(tail);
      }
    }
  }

  /** A selection of a sequence that starts with a value, minus that value. */
  lemma SelectionTailSome<T>(results: seq<Option<T>>, idx: seq<nat>, valid: seq<T>)
    requires IsSelection(results, idx, valid)
    requires results != [] && results[0].Some?
    ensures idx != [] && valid[0] == results[0].value
    ensures IsSelection(results[1..], Unshift(idx[1..]), valid[1..])
  {
  }

  /** A selection of a sequence that starts with `null`, shifted down. */
  lemma SelectionTailNone<T>(results: seq<Option<T>>, idx: seq<nat>, valid: seq<T>)
    requires IsSelection(results, idx, valid)
    requires results != [] && results[0].None?
    ensures IsSelection(results[1..], Unshift(idx), valid)
  {
  }

  /** Conversely, a selection determines its values: the filter is the only
      order-preserving subsequence that keeps exactly the non-null results. */
  lemma {:induction false} SelectionIsKeepNonNull<T>(results: seq<Option<T>>, idx: seq<nat>, valid: seq<T>)
    requires IsSelection(results, idx, valid)
    ensures valid == KeepNonNull(results)
  {
    if results != [] {
      if results[0].Some? {
        SelectionTailSome(results, idx, valid);
        SelectionIsKeepNonNull(results[1..], Unshift(idx[1..]), valid[1..]);
        assert KeepNonNull(results) == [results[0].value] + KeepNonNull(results[1..]);
        assert valid == [valid[0]] + valid[1..];
      } else {
        SelectionTailNone(results, idx, valid);
        SelectionIsKeepNonNull(results[1..], Unshift(idx), valid);
        assert KeepNonNull(results) == KeepNonNull(results[1..]);
      }
    }
  }

  lemma {:induction false} KeepNonNullAppend<T>(a: seq<Option<T>>, b: seq<Option<T>>)
    ensures KeepNonNull(a + b) == KeepNonNull(a) + KeepNonNull(b)
  {
    if a == [] {
      assert a + b == b;
    } else {
      assert (a + b)[1..] == a[1..] + b;
      KeepNonNullAppend(a[1..], b);
    }
  }

  /** Dropping a `null` result leaves the filtered list unchanged. */
  lemma KeepNonNullDropNull<T>(results: seq<Option<T>>, i: nat)
    requires i < |results| && results[i].None?
    ensures KeepNonNull(results) == KeepNonNull(results[..i] + results[i + 1..])
  {
    var before, rest := results[..i], [results[i]] + results[i + 1..];
    assert results == before + rest;
    assert rest[1..] == results[i + 1..];
    assert KeepNonNull(rest) == KeepNonNull(results[i + 1..]);
    KeepNonNullAppend(before, rest);
    KeepNonNullAppend(before, results[i + 1..]);
  }

  /** `validData`: the ordered records of every file that yielded one. */
  function Combine(files: seq<File>, parse: Parser): (r: seq<GuestRecord>)
    ensures |r| <= |files|
    ensures r == [] <==> forall i :: 0 <= i < |files| ==> ReadFile(files[i], parse).None?
  {
    KeepNonNull(ReadAll(files, parse))
  }

  /** A file that yields `null` (unreadable, unparsable or without
      `guest_account_info`) contributes nothing and disturbs none of the
      others: the batch is what it would be without that file. */
  lemma FailedFileIsolated(files: seq<File>, parse: Parser, i: nat)
    requires i < |files|
    requires ReadFile(files[i], parse).None?
    ensures Combine(files, parse) == Combine(files[..i] + files[i + 1..], parse)
  {
    var results := ReadAll(files, parse);
    assert ReadAll(files[..i] + files[i + 1..], parse) == results[..i] + results[i + 1..];
    KeepNonNullDropNull(results, i);
  }

  /** The combined batch of a concatenation is the concatenation of the
      batches: each file's contribution depends on that file alone. */
  lemma CombineAppend(a: seq<File>, b: seq<File>, parse: Parser)
    ensures Combine(a + b, parse) == Combine(a, parse) + Combine(b, parse)
  {
    var ra, rb, rab := ReadAll(a, parse), ReadAll(b, parse), ReadAll(a + b, parse);
    forall i | 0 <= i < |a + b|
      ensures rab[i] == (ra + rb)[i]
    {
      if i < |a| {
        assert (a + b)[i] == a[i];
      } else {
        assert (a + b)[i] == b[i - |a|];
      }
    }
    assert rab == ra + rb;
    KeepNonNullAppend(ra, rb);
  }

  // ---------------------------------------------------------------------
  // The artifact

  /** The object `JSON.stringify` is given for one record. */
  function RecordObject(r: GuestRecord): Json {
    Obj(map["uid" := r.uid, "password" := r.password])
  }

  /** The JSON document the downloaded file holds, as `JSON.parse` would read
      it back (indentation is not modelled). A record field that was
      `undefined` is missing from its object. */
  function Document(records: seq<GuestRecord>): (doc: Json)
    ensures NoUndefined(doc)
    ensures doc.Arr? && |doc.elems| == |records|
  {
    Reparse(Arr(seq(|records|, i requires 0 <= i < |records| => RecordObject(records[i]))))
  }

  /** A consumer's view of the document: each element's `uid` and `password`. */
  function ReadBack(doc: Json): seq<GuestRecord> {
    if doc.Arr? then
      seq(|doc.elems|, i requires 0 <= i < |doc.elems| =>
        GuestRecord(Lookup(doc.elems[i], "uid"), Lookup(doc.elems[i], "password")))
    else []
  }

  /** A field a parsed file can supply: absent (`undefined`) or a JSON value. */
  predicate Denotable(v: Json) {
    v == Undefined || NoUndefined(v)
  }

  /** Reading the downloaded document back gives the combined records, in
      order, field by field; a field that was `undefined` reads back as
      `undefined` because its key is absent. */
  lemma DocumentRoundTrip(records: seq<GuestRecord>)
    requires forall i :: 0 <= i < |records| ==> Denotable(records[i].uid) && Denotable(records[i].password)
    ensures ReadBack(Document(records)) == records
  {
    var doc := Document(records);
    forall i | 0 <= i < |records|
      ensures ReadBack(doc)[i] == records[i]
    {
      var r := records[i];
      var o := RecordObject(r);
      assert doc.elems[i] == Reparse(o);
      if r.uid != Undefined {
        ReparseIdentity(r.uid);
      }
      if r.password != Undefined {
        ReparseIdentity(r.password);
      }
      assert Lookup(Reparse(o), "uid") == r.uid;
      assert Lookup(Reparse(o), "password") == r.password;
    }
  }

  /** A parser that never produces `undefined` at any depth, as `JSON.parse`
      does not. */
  ghost predicate ParsesToJson(parse: Parser) {
    forall s :: parse(s).Some? ==> NoUndefined(parse(s).value)
  }

  /** Every record of a batch carries fields a JSON file can supply. */
  lemma CombinedFieldsDenotable(files: seq<File>, parse: Parser)
    requires ParsesToJson(parse)
    ensures forall r :: r in Combine(files, parse) ==> Denotable(r.uid) && Denotable(r.password)
  {
    var results := ReadAll(files, parse);
    var idx := KeepNonNullSelects(results);
    forall r | r in Combine(files, parse)
      ensures Denotable(r.uid) && Denotable(r.password)
    {
      var k :| 0 <= k < |Combine(files, parse)| && Combine(files, parse)[k] == r;
      var i := idx[k];
      assert results[i] == Some(r);
      var parsed := parse(files[i].content).value;
      var info := Lookup(parsed, InfoKey);
      LookupKeepsNoUndefined(parsed, InfoKey);
      LookupKeepsNoUndefined(info, UidKey);
      LookupKeepsNoUndefined(info, PasswordKey);
    }
  }

  // ---------------------------------------------------------------------
  // The form

  /** The component state the core touches: the file input's current
      `FileList` (`None` when there is none), the selected-file counter shown
      to the user, and the processing flag that disables the button. */
  datatype FormState = FormState(input: Option<seq<File>>, selectedFiles: nat, isProcessing: bool)

  /** The downloaded artifact: its fixed name and media type and its content. */
  datatype Artifact = Artifact(fileName: string, mediaType: string, content: Json)

  /** What the user sees from one press of the convert button. */
  datatype Effect = Alerted(message: string) | Downloaded(artifact: Artifact)

  datatype Processed = Processed(effect: Effect, after: FormState)

  /** `handleFileChange`: the counter follows the new selection's length. */
  function HandleFileChange(state: FormState, files: Option<seq<File>>): (s: FormState)
    ensures files.Some? ==> s.selectedFiles == |files.value|
    ensures files.None? ==> s.selectedFiles == 0
    ensures s.input == state.input && s.isProcessing == state.isProcessing
  {
    match files
    case Some(list) => state.(selectedFiles := |list|)
    case None => state.(selectedFiles := 0)
  }

  /** `resetForm`: clearing the input's value empties its file list. */
  function ResetForm(state: FormState): (s: FormState)
    ensures s.selectedFiles == 0
    ensures s.input.Some? <==> state.input.Some?
    ensures s.input.Some? ==> s.input.value == []
    ensures s.isProcessing == state.isProcessing
  {
    state.(input := if state.input.Some? then Some([]) else None, selectedFiles := 0)
  }

  /** `processFiles`. The `catch` branch is absent: `readFile` never rejects,
      serializing parsed JSON never throws, and the download itself is not
      modelled as failing. */
  function ProcessFiles(state: FormState, parse: Parser): (p: Processed)
    ensures (state.input.None? || state.input.value == []) <==>
      p == Processed(Alerted(NoFilesMessage), state)
    ensures state.input.Some? && state.input.value != [] ==>
      && !p.after.isProcessing
      && (p.effect == Alerted(NoDataMessage) <==>
            forall i :: 0 <= i < |state.input.value| ==> ReadFile(state.input.value[i], parse).None?)
      && (p.effect.Alerted? ==> p.after == state.(isProcessing := false))
      && (p.effect.Downloaded? ==>
            && p.effect.artifact.fileName == OutputName
            && p.effect.artifact.mediaType == OutputType
            && p.effect.artifact.content == Document(Combine(state.input.value, parse))
            && p.after == FormState(Some([]), 0, false))
    ensures state.input.Some? && state.input.value != []
      && (exists i :: 0 <= i < |state.input.value| && ReadFile(state.input.value[i], parse).Some?)
      ==> p.effect.Downloaded?
  {
    match state.input
    case None => Processed(Alerted(NoFilesMessage), state)
    case Some(files) =>
      if |files| == 0 then Processed(Alerted(NoFilesMessage), state)
      else
        var busy := state.(isProcessing := true);
        var valid := Combine(files, parse);
        if |valid| == 0 then
          Processed(Alerted(NoDataMessage), busy.(isProcessing := false))
        else
          var artifact := Artifact(OutputName, OutputType, Document(valid));
          Processed(Downloaded(artifact), ResetForm(busy).(isProcessing := false))
  }

  /** The selected-file counter agrees with the input's file list. */
  ghost predicate CounterMatches(s: FormState) {
    s.selectedFiles == (if s.input.Some? then |s.input.value| else 0)
  }

  /** Resetting leaves the counter in agreement with the emptied list. */
  lemma ResetFormMatches(s: FormState)
    ensures CounterMatches(ResetForm(s))
  {
  }

  /** A change event whose list the input now holds brings the counter into
      agreement with it. */
  lemma HandleFileChangeMatches(s: FormState, files: Option<seq<File>>)
    ensures CounterMatches(HandleFileChange(s.(input := files), files))
  {
  }

  /** Processing keeps the counter in agreement with the file list. */
  lemma ProcessFilesKeepsCounter(s: FormState, parse: Parser)
    requires CounterMatches(s)
    ensures CounterMatches(ProcessFiles(s, parse).after)
  {
  }

  /** While the counter matches the list, the button being enabled (a
      non-zero counter) means the select-files alert cannot fire: the
      button's guard and the `files?.length` guard agree. */
  lemma EnabledButtonPassesGuard(s: FormState, parse: Parser)
    requires CounterMatches(s) && s.selectedFiles != 0
    ensures ProcessFiles(s, parse).effect != Alerted(NoFilesMessage)
  {
  }

  /** End to end: reading the downloaded file back yields exactly the records
      of the readable files, in selection order. */
  lemma DownloadRoundTrip(state: FormState, parse: Parser)
    requires ParsesToJson(parse)
    requires ProcessFiles(state, parse).effect.Downloaded?
    ensures state.input.Some?
    ensures ReadBack(ProcessFiles(state, parse).effect.artifact.content) == Combine(state.input.value, parse)
    ensures ProcessFiles(state, parse).effect.artifact.content.elems != []
  {
    var files := state.input.value;
    CombinedFieldsDenotable(files, parse);
    DocumentRoundTrip(Combine(files, parse));
  }

  // ---------------------------------------------------------------------
  // Worked batches

  /** The shape of a well-formed guest file once parsed. */
  function GuestDocument(info: map<string, Json>): Json {
    Obj(map[InfoKey := Obj(info)])
  }

  const FileA := "{\"guest_account_info\":{\"com.garena.msdk.guest_uid\":\"A1\",\"com.garena.msdk.guest_password\":\"P1\"}}"
  const FileB := "{\"guest_account_info\":{\"com.garena.msdk.guest_uid\":\"A2\",\"com.garena.msdk.guest_password\":\"P2\"}}"
  const FileNoPassword := "{\"guest_account_info\":{\"com.garena.msdk.guest_uid\":\"A1\"}}"

  /** `JSON.parse` on the texts above; everything else is a syntax error. */
  function SampleParse(s: string): Option<Json> {
    if s == FileA then Some(GuestDocument(map[UidKey := Str("A1"), PasswordKey := Str("P1")]))
    else if s == FileB then Some(GuestDocument(map[UidKey := Str("A2"), PasswordKey := Str("P2")]))
    else if s == FileNoPassword then Some(GuestDocument(map[UidKey := Str("A1")]))
    else None
  }

  /** Two good files around an unparsable one: the middle file is skipped and
      the order of the others is kept. */
  lemma MixedBatch()
    ensures Combine([Text(FileA), Text("not json"), Text(FileB)], SampleParse)
         == [GuestRecord(Str("A1"), Str("P1")), GuestRecord(Str("A2"), Str("P2"))]
  {
    var results := ReadAll([Text(FileA), Text("not json"), Text(FileB)], SampleParse);
    assert results == [Some(GuestRecord(Str("A1"), Str("P1"))), None, Some(GuestRecord(Str("A2"), Str("P2")))];
    var last := [Some(GuestRecord(Str("A2"), Str("P2")))];
    assert results[1..][1..] == last && last[1..] == [];
    assert KeepNonNull(last) == [GuestRecord(Str("A2"), Str("P2"))];
    assert KeepNonNull(results[1..]) == KeepNonNull(last);
  }

  /** The sub-fields are not checked: a file without the password key still
      yields a record, whose password is `undefined` and which appears in the
      download as an object with a `uid` only. */
  lemma MissingPasswordStillYieldsRecord()
    ensures ReadFile(Text(FileNoPassword), SampleParse) == Some(GuestRecord(Str("A1"), Undefined))
    ensures Document([GuestRecord(Str("A1"), Undefined)]).elems[0] == Obj(map["uid" := Str("A1")])
  {
    var o := RecordObject(GuestRecord(Str("A1"), Undefined));
    assert Reparse(o).members.Keys == {"uid"};
  }
}

=== FILE: js_string.dfy ===
/** `String.prototype.trim` as section 22.1.3.32 of ECMA-262 defines it: strip
    the leading and trailing characters that are WhiteSpace or
    LineTerminator. Strings here are sequences of Unicode scalar values, so
    the UTF-16 code units of JavaScript strings (lone surrogates included)
    are not modelled. */
module JsString {

  /** WhiteSpace (tab, vertical tab, form feed, space, no-break space, byte
      order mark and the Unicode category Zs) or LineTerminator (line feed,
      carriage return, line and paragraph separators). */
  predicate IsTrimmable(c: char) {
    var n := c as int;
    || n == 0x09 || n == 0x0A || n == 0x0B || n == 0x0C || n == 0x0D
    || n == 0x20 || n == 0xA0 || n == 0x1680
    || (0x2000 <= n <= 0x200A)
    || n == 0x2028 || n == 0x2029 || n == 0x202F || n == 0x205F
    || n == 0x3000 || n == 0xFEFF
  }

  predicate AllTrimmable(s: string) {
    forall i :: 0 <= i < |s| ==> IsTrimmable(s[i])
  }

  /** Where the text starts once the leading whitespace is dropped. */
  function StartIndex(s: string): (k: nat)
    ensures k <= |s|
    ensures forall i :: 0 <= i < k ==> IsTrimmable(s[i])
    ensures k < |s| ==> !IsTrimmable(s[k])
  {
    if s != [] && IsTrimmable(s[0]) then
      var k := 1 + StartIndex(s[1..]);
      assert forall i :: 1 <= i < k ==> s[i] == s[1..][i - 1];
      k
    else 0
  }

  /** Where the text ends once the trailing whitespace is dropped. */
  function EndIndex(s: string): (k: nat)
    ensures k <= |s|
    ensures forall i :: k <= i < |s| ==> IsTrimmable(s[i])
    ensures 0 < k ==> !IsTrimmable(s[k - 1])
  {
    if s != [] && IsTrimmable(s[|s| - 1]) then
      var k := EndIndex(s[..|s| - 1]);
      assert forall i :: k <= i < |s| - 1 ==> s[i] == s[..|s| - 1][i];
      k
    else |s|
  }

  function Trim(s: string): string {
    var t := s[StartIndex(s)..];
    t[..EndIndex(t)]
  }

  /** `s.trim()` is the empty string exactly when every character of `s` is
      whitespace or a line terminator. */
  lemma TrimEmptyIff(s: string)
    ensures Trim(s) == [] <==> AllTrimmable(s)
  {
  }
}

=== FILE: js_value.dfy ===
/** An abstract model of the JavaScript values the core handles: whatever
    `JSON.parse` or `Response.json()` can produce, plus `undefined`, which
    a property access yields for a missing key. */
module JsValue {
  import opened Wrappers

  /** Objects are maps from key to value; the insertion order of keys is not
      modelled. Numbers are finite reals: the `Infinity` that `JSON.parse`
      gives for a literal beyond the double range (`1e400`) is not
      modelled, nor is rounding to the nearest double. */
  datatype Json =
    | Undefined
    | Null
    | Bool(b: bool)
    | Num(n: real)
    | Str(s: string)
    | Arr(elems: seq<Json>)
    | Obj(members: map<string, Json>)

  /** The exception a property access on `null` or `undefined` throws. */
  datatype TypeError = CannotReadProperty(key: string)

  predicate IsNullish(v: Json) {
    v.Null? || v.Undefined?
  }

  /** JavaScript truthiness (`Boolean(v)`, `if (v)`, `v ? a : b`). */
  predicate Truthy(v: Json) {
    match v
    case Undefined => false
    case Null => false
    case Bool(b) => b
    case Num(n) => n != 0.0
    case Str(s) => s != ""
    case Arr(_) => true
    case Obj(_) => true
  }

  /** The value `v[key]` denotes when it does not throw: the member of an
      object, `undefined` otherwise. Keys such as `length` or array indices,
      which no caller in the core looks up, are not modelled. */
  function Lookup(v: Json, key: string): Json {
    if v.Obj? && key in v.members then v.members[key] else Undefined
  }

  /** `v[key]` / `v.key` as evaluated: throws on `null` and `undefined`. */
  function Get(v: Json, key: string): (r: Result<Json, TypeError>)
    ensures r.Failure? <==> IsNullish(v)
    ensures r.Success? ==> r.value == Lookup(v, key)
    ensures r.Success? && r.value != Undefined ==> v.Obj? && key in v.members
  {
    match v
    case Undefined => Failure(CannotReadProperty(key))
    case Null => Failure(CannotReadProperty(key))
    case Obj(m) => Success(if key in m then m[key] else Undefined)
    case _ => Success(Undefined)
  }

  /** `v?.key`: short-circuits to `undefined` on a nullish receiver. */
  function OptionalGet(v: Json, key: string): Json {
    if IsNullish(v) then Undefined else Lookup(v, key)
  }

  /** `a ?? b`. */
  function Coalesce(a: Json, b: Json): Json {
    if IsNullish(a) then b else a
  }

  /** A value no `undefined` occurs in, at any depth: everything JSON text
      can denote. */
  predicate NoUndefined(v: Json) {
    match v
    case Undefined => false
    case Arr(es) => forall i :: 0 <= i < |es| ==> NoUndefined(es[i])
    case Obj(m) => forall k :: k in m ==> NoUndefined(m[k])
    case _ => true
  }

  /** What `JSON.parse(JSON.stringify(v))` gives back for a value nested inside
      an array or object being serialized: object members holding `undefined`
      are omitted, array elements holding `undefined` become `null`. */
  function Reparse(v: Json): (r: Json)
    ensures NoUndefined(r)
  {
    match v
    case Undefined => Null
    case Arr(es) => Arr(seq(|es|, i requires 0 <= i < |es| => Reparse(es[i])))
    case Obj(m) => Obj(map k | k in m && !m[k].Undefined? :: Reparse(m[k]))
    case _ => v
  }

  /** Serializing and parsing back is the identity on JSON-denotable values. */
  lemma {:induction false} ReparseIdentity(v: Json)
    requires NoUndefined(v)
    ensures Reparse(v) == v
  {
    match v
    case Arr(es) =>
      forall i | 0 <= i < |es|
        ensures Reparse(es[i]) == es[i]
      {
        ReparseIdentity(es[i]);
      }
      assert Reparse(v).elems == es;
    case Obj(m) =>
      forall k | k in m
        ensures Reparse(m[k]) == m[k]
      {
        ReparseIdentity(m[k]);
      }
      assert Reparse(v).members == m;
    case _ =>
  }

  /** Looking a key up in a JSON-denotable value gives either `undefined` (the
      key is absent) or another JSON-denotable value. */
  lemma LookupKeepsNoUndefined(v: Json, key: string)
    requires NoUndefined(v)
    ensures Lookup(v, key) == Undefined || NoUndefined(Lookup(v, key))
  {
  }
}

=== FILE: wrappers.dfy ===
/** Wrappers used throughout the model: `Option` stands for a JavaScript value
    that may be `null`, and the failure-compatible `Result` for a computation
    that may throw. */
module Wrappers {

  datatype Option<+T> = None | Some(value: T)

  datatype Result<+R, +E> = Success(value: R) | Failure(error: E) {

    predicate IsFailure() {
      Failure?
    }

    function PropagateFailure<U>(): Result<U, E>
      requires Failure?
    {
      Failure(error)
    }

    function Extract(): R
      requires Success?
    {
      value
    }

    /** What a `catch` block that swallows the exception and yields `null` sees. */
    function ToOption(): (o: Option<R>)
      ensures o.Some? <==> Success?
      ensures o.Some? ==> o.value == value
    {
      match this
      case Success(v) => Some(v)
      case Failure(_) => None
    }
  }
}
